=== FILE: README.md ===
# TempMail core, modelled in Dafny

TempMail is a terminal tool that creates disposable e-mail addresses through a remote
API, watches the inbox of one address, and keeps two small JSON files: the history of
created addresses and the ids of messages already shown. This project models the
logic inside that tool:

- the **address history** (`save_email`, `get_old_emails`, and the history half of
  `remove_all_data`) as a file that is `Missing`, `Corrupt` or `Valid(list)`
  (`stores.dfy`, module `Stores`);
- the **seen-message file** (loaded at the start of `display_inbox`, rewritten after a
  tick that showed something, deleted by `remove_all_data`), also in `Stores`;
- **one poll tick** of `display_inbox`: given the in-memory seen set and the provider's
  message listing, which rows are shown, what the seen set becomes, and whether the
  seen file is written (`poller.dfy`, module `Poller`). `Tick` is the declarative
  definition; `PollTick` is the loop as the program runs it, proved to compute `Tick`.
  A viewing session (`InboxView`, `OpenInbox`, `Poll`) strings ticks together and keeps
  the seen file in step with memory;
- the **cells** of a table row: the body cut to 100 characters plus `...`, and the
  attachment cell, `None` or one `[link=URL]name[/link]` per attachment joined by line
  breaks (`cells.dfy`, module `Cells`);
- Python's `str()` of message and attachment ids, decimal rendering for integers
  (`ids.dfy`, module `Ids`), and `"\n".join` with its inverse split (`strings.dfy`,
  module `Strings`).

Strings are `seq<char>`; Dafny's `char` is a Unicode scalar value, so `|s|` matches
Python's `len` on text without lone surrogates. The network, the clock and the console
are not modelled: the provider's answer to one inbox request is an input
(`Response`: `RequestFailed`, `NotJson`, or `Messages(msgs)`).

A message is new only if its key is neither in the loaded seen set nor the key of an
earlier message of the same listing; the table shown after a tick holds only that
tick's new rows.

## Model

| member | source | states |
|---|---|---|
| `Stores.ReadHistory` | mail.py:71-79 | a missing or undecodable history file lists no addresses; a decoded one lists its contents |
| `Stores.SaveEmail` | mail.py:53-68 | the result always decodes and contains the address; an address already listed leaves the file untouched; otherwise it is appended after the existing entries; from a missing or undecodable file the history becomes exactly `[email]` |
| `Stores.SaveEmailIdempotent` | mail.py:65-68 | saving an address twice is the same as saving it once |
| `Stores.SaveEmailKeepsEarlier` | mail.py:65-68 | the old history is a prefix of the new one, which is at most one entry longer |
| `Stores.SaveEmailKeepsNoDuplicates` | mail.py:65-66 | a history without repeated addresses keeps that property |
| `Stores.SaveAllFromScratch` | mail.py:53-68 | from any file that lists no addresses (missing, undecodable or an empty array), a series of saves leaves each distinct address once, in first-seen order |
| `Stores.SaveTwiceThenAnother` | mail.py:53-68 | saving `a@x.test` twice then `b@x.test` yields `["a@x.test", "b@x.test"]` |
| `Stores.LoadSeen` | mail.py:119-125 | a missing or undecodable seen file loads as the empty set |
| `Stores.StoreSeen` | mail.py:165-166 | writing the seen set and loading it back gives the same set |
| `Stores.RemoveAllData` | mail.py:180-186 | both files end up missing, so the history reads as empty and the seen set loads as empty |
| `Stores.SaveAfterRemove` | mail.py:56-58 | after a wipe the next save makes the history exactly that one address |
| `Ids.NatToDecimal` | mail.py:144 | the decimal form of a natural number is non-empty and all digits; it starts with `0` only when it is exactly `"0"`, the form of zero |
| `Ids.ParseNatToDecimal` | mail.py:144 | reading the digits back yields the number |
| `Ids.IntToDecimal` | mail.py:144 | negatives, and only negatives, start with `-`; the digits that follow read back as the number's absolute value, with no leading zero other than the single `0` of zero |
| `Ids.IntToDecimalInjective` | mail.py:144 | two integers render the same exactly when they are equal |
| `Ids.Str` | mail.py:144 | a string id is its own key; a numeric id's key is the integer's decimal form `IntToDecimal(n)`, non-empty and signed as the number is |
| `Ids.StrNumInjective` | mail.py:144-145 | two numeric message ids share a seen-set key exactly when they are equal |
| `Ids.StrMergesNumAndText` | mail.py:144-145 | a numeric id and a string id spelling the same digits share one key |
| `Cells.BodyCell` | mail.py:159 | bodies of at most 100 characters are shown unchanged; longer ones as their first 100 characters and `...`, 103 characters |
| `Cells.BodyCellIdempotent` | mail.py:159 | cutting an already cut body changes nothing |
| `Cells.BodyCellKeepsPrefix` | mail.py:159 | the cell starts with the first `min(len, 100)` characters of the body |
| `Cells.BodyCellExamples` | mail.py:159 | a 150-character body gives a 103-character cell; an 80-character body is unchanged |
| `Cells.AttachmentUrl` | mail.py:152 | the URL is the endpoint prefix, then `str(id)`, then `?download=1`, and the id can be read back out of it |
| `Cells.AttachmentUrlInjective` | mail.py:152 | distinct numeric attachment ids get distinct URLs |
| `Cells.Link` | mail.py:152-153 | each attachment's entry opens with `[link=` followed by the download URL for that attachment's id, then `]`, and closes with its name followed by `[/link]` |
| `Cells.Links` | mail.py:151-153 | one entry per attachment, the entry at each position being the link of the attachment at that position |
| `Cells.LinkSingleLine` | mail.py:152-153 | an attachment whose name, and whose id if it is a string, hold no line break gets a link without a line break |
| `Cells.SingleLineLinksFromNames` | mail.py:151-153 | attachments whose names and string ids hold no line break all get single-line links, which is what `AttachmentCellLines` requires |
| `Cells.StrSingleLine` | mail.py:152 | `str()` of a numeric id never holds a line break; that of a string id only if the string does |
| `Cells.AttachmentCell` | mail.py:149-160 | an absent, null or empty attachment field gives the marker `None`; otherwise the cell is the attachments' links, one per attachment in order, joined by line breaks |
| `Cells.AttachmentCellNoneIff` | mail.py:149-160 | the cell is `None` exactly when there is no attachment |
| `Cells.AttachmentCellLines` | mail.py:149-160 | when no link holds a line break, splitting the cell at line breaks returns one link per attachment, in order |
| `Cells.MakeRow` | mail.py:155-161 | the row carries the message's sender, recipient and subject unchanged, its body cut to at most 103 characters, and as its last cell the attachment cell of the message, which is the marker `None` exactly when there is no attachment |
| `Cells.MakeRowAttachmentLines` | mail.py:149-161 | when no attachment link holds a line break, the row's attachment cell split at line breaks gives back one link per attachment, in order |
| `Strings.Join` | mail.py:160 | joining nothing gives the empty text; the result starts with the first part, followed by the separator when there is a second part |
| `Strings.SplitJoin` | mail.py:160 | when no part holds the separator, splitting the joined text at the separator gives back exactly the parts |
| `Poller.IdOf` | mail.py:144 | a message's seen-set key is its string id itself, or the decimal form of its numeric id |
| `Poller.IdOfNumInjective` | mail.py:144-145 | two messages with numeric ids share a key exactly when their ids are equal |
| `Poller.KeysOfMembers` | mail.py:143-144 | a key is among a listing's keys exactly when some message carries it |
| `Poller.NewPositions` | mail.py:143-147 | the positions producing rows are in range and strictly increasing, that is in provider order |
| `Poller.NewPositionsExact` | mail.py:143-147 | a message produces a row exactly when its key is neither in the loaded seen set nor carried by an earlier message of the same listing |
| `Poller.NewRowCount` | mail.py:143-161 | the number of rows equals the number of distinct listing keys not already seen |
| `Poller.Tick` | mail.py:142-166 | the seen set only grows and afterwards holds every listing key and nothing else new; a write happens exactly when a row was produced, exactly when some key was unseen |
| `Poller.PollTick` | mail.py:142-166 | the loop produces the rows of the new positions in listing order, the seen set plus all listing keys, and a write flag that is set exactly when a row was produced |
| `Poller.ReplayIsQuiet` | mail.py:142-166 | the same listing fed again from the resulting seen set shows no row and writes nothing |
| `Poller.FirstMessageAlreadySeen` | mail.py:143-166 | listing ids `1, 2` against seen `{"1"}` shows only message 2 and leaves seen `{"1", "2"}` |
| `Poller.OpenInbox` | mail.py:119-125 | opening the view loads the seen file, empty when missing or undecodable, with nothing shown |
| `Poller.Poll` | mail.py:127-177 | a failed request or undecodable body changes nothing; after a listing the seen set is exactly the old set plus the listing's keys; when the tick shows rows the table becomes exactly those rows and the seen file is rewritten with the whole seen set, otherwise nothing changes; memory and file stay in agreement |
| `Poller.PollTwice` | mail.py:142-166 | polling the same listing twice in a row changes nothing the second time |
| `Poller.ReopenShowsNothingOld` | mail.py:119-166 | reopening the view restores the same seen set from disk, so an already polled listing shows nothing and writes nothing |
| `Poller.WipeShowsEverything` | mail.py:119-125 | after wiping local data, a listing shows one row per distinct message key |

## Left out

- `get_random_email` (mail.py:41-50): an HTTP POST to the provider; the address it returns is an input to `Stores.SaveEmail`.
- The HTTP GET, `raise_for_status` and `response.json()` of `display_inbox`: their outcome is the `Response` input to `Poller.Poll`.
- The endless `while True` loop, `time.sleep(5)` and `KeyboardInterrupt`: timing and cancellation; one turn of the loop is `Poller.Poll`, a session is any sequence of them.
- JSON encoding and file bytes: files are `Missing`, `Corrupt` or `Valid`. In particular the rewrite in `save_email` seeks to the start without truncating (mail.py:67-68), so a shorter new text could leave stale bytes behind; the model treats every write as replacing the whole file.
- The order in which `list(seen_mail_ids)` writes the seen ids: the seen file is modelled as the set it is read back into.
- JSON values other than the ones modelled are not modelled. Some of them make the program raise: a message missing a key, or a `null` listing. Others are accepted and give keys the model does not produce: `str()` of a float, `true` or `null` id (`"1.5"`, `"True"`, `"None"`, and a float `1.0` keyed `"1.0"` apart from `1`), a history array holding numbers, a seen file holding an object or a string turned into a set by `set(...)`, and an empty-object listing that loops zero times.
- Creating and removing the data directory (mail.py:55, mail.py:187-192): filesystem side effects with no effect on what is read back.
- `show_logo`, `display_emails`, `login_to_old_email`, `main_menu` and all `rich`/`pyfiglet` rendering and prompt validation: presentation and input handling.
- The seen set is shared by all addresses (it is not keyed by mailbox); the model keeps this, since `Poller.Poll` takes no address.

=== FILE: cells.dfy ===
/**
 The inbox messages as the provider returns them, and the five text cells of the
 inbox table row built from one message: sender, recipient, subject, the body cut to
 a fixed length, and the attachment links.
 */
module Cells {
  import opened Ids
  import opened Strings
  import opened Endpoints

  datatype Option<T> = None | Some(value: T)

  /** An attachment entry of a message: only used to build a download link. */
  datatype Attachment = Attachment(id: JsonId, name: string)

  /**
   One message of the provider's inbox listing. `attachments` is `None` when the
   field is absent or null.
   */
  datatype Msg = Msg(
    id: JsonId,
    sender: string,
    recipient: string,
    subject: string,
    bodyText: string,
    attachments: Option<seq<Attachment>>)

  /** One row of the inbox table: From, To, Subject, Body, Attachments. */
  datatype Row = Row(sender: string, recipient: string, subject: string, body: string, attachments: string)

  /** Bodies longer than this many characters are cut. */
  const BodyLimit: nat := 100
  const Ellipsis: string := "..."

  /** Console markup around one attachment entry. */
  const LinkOpen: string := "[link="
  const LinkClose: string := "[/link]"

  /** Marker shown when a message has no attachments. */
  const NoAttachments: string := "None"

  /**
   The body cell: a body of at most `BodyLimit` characters is shown whole; a longer
   one shows its first `BodyLimit` characters and an ellipsis.
   */
  function BodyCell(body: string): (cell: string)
    ensures |cell| <= BodyLimit + |Ellipsis|
    ensures |body| <= BodyLimit ==> cell == body
    ensures |body| > BodyLimit ==> |cell| == BodyLimit + |Ellipsis|
    ensures |body| > BodyLimit ==> cell[..BodyLimit] == body[..BodyLimit] && cell[BodyLimit..] == Ellipsis
  {
    if |body| > BodyLimit then body[..BodyLimit] + Ellipsis else body
  }

  /** Cutting an already cut body changes nothing. */
  lemma BodyCellIdempotent(body: string)
    ensures BodyCell(BodyCell(body)) == BodyCell(body)
  {
  }

  /** Every cell starts with the body's first `min(|body|, BodyLimit)` characters. */
  lemma BodyCellKeepsPrefix(body: string)
    ensures |body| <= BodyLimit ==> body <= BodyCell(body)
    ensures |body| > BodyLimit ==> body[..BodyLimit] <= BodyCell(body)
  {
  }

  lemma BodyCellExamples(long: string, short: string)
    requires |long| == 150 && |short| == 80
    ensures BodyCell(long) == long[..100] + "..." && |BodyCell(long)| == 103
    ensures BodyCell(short) == short
  {
  }

  /** The download URL of an attachment: the endpoint template filled with `str(id)`. */
  function AttachmentUrl(id: JsonId): (url: string)
    ensures AttachmentUrlPrefix <= url
    ensures |url| == |AttachmentUrlPrefix| + |Str(id)| + |AttachmentUrlSuffix|
    ensures url[|AttachmentUrlPrefix|..|url| - |AttachmentUrlSuffix|] == Str(id)
    ensures url[|url| - |AttachmentUrlSuffix|..] == AttachmentUrlSuffix
  {
    AttachmentUrlPrefix + Str(id) + AttachmentUrlSuffix
  }

  /** Different numeric attachment ids never share a download URL. */
  lemma AttachmentUrlInjective(a: int, b: int)
    ensures AttachmentUrl(Num(a)) == AttachmentUrl(Num(b)) <==> a == b
  {
    if AttachmentUrl(Num(a)) == AttachmentUrl(Num(b)) {
      StrNumInjective(a, b);
    }
  }

  /** The console markup for one attachment: its name linked to its download URL. */
  function Link(a: Attachment): (s: string)
    ensures |s| == |LinkOpen| + |AttachmentUrl(a.id)| + 1 + |a.name| + |LinkClose|
    ensures LinkOpen <= s && s[|s| - |LinkClose|..] == LinkClose
    ensures s[|LinkOpen|..|LinkOpen| + |AttachmentUrl(a.id)|] == AttachmentUrl(a.id)
    ensures s[|LinkOpen| + |AttachmentUrl(a.id)|] == ']'
    ensures s[|s| - |LinkClose| - |a.name|..|s| - |LinkClose|] == a.name
  {
    var url := AttachmentUrl(a.id);
    var head := LinkOpen + url + "]";
    assert head[..|LinkOpen|] == LinkOpen && head[|LinkOpen|..|LinkOpen| + |url|] == url;
    assert head[|LinkOpen| + |url|] == ']';
    var s := head + a.name + LinkClose;
    assert s[..|head|] == head;
    assert s[|head|..|head| + |a.name|] == a.name;
    s
  }

  /** The entries of the attachments, one per attachment, in order. */
  function Links(atts: seq<Attachment>): (ls: seq<string>)
    ensures |ls| == |atts|
    ensures forall i :: 0 <= i < |atts| ==> ls[i] == Link(atts[i])
  {
    seq(|atts|, i requires 0 <= i < |atts| => Link(atts[i]))
  }

  /**
   The attachment cell: one link per attachment, in order, one per line; the marker
   `None` when the attachment field is absent, null or empty.
   */
  function AttachmentCell(atts: Option<seq<Attachment>>): (cell: string)
    ensures atts.None? ==> cell == NoAttachments
    ensures atts.Some? && |atts.value| == 0 ==> cell == NoAttachments
    ensures atts.Some? && |atts.value| > 0 ==> cell == Join(Links(atts.value), '\n')
  {
    var links := if atts.Some? && |atts.value| > 0 then Links(atts.value) else [];
    if |links| > 0 then Join(links, '\n') else NoAttachments
  }

  /** True when no line break can occur inside the link of any of `atts`. */
  predicate SingleLineLinks(atts: seq<Attachment>) {
    forall i :: 0 <= i < |atts| ==> '\n' !in Link(atts[i])
  }

  /**
   A link spans one line when the attachment's name does; a numeric id never holds a
   line break, a string id must not either.
   */
  lemma LinkSingleLine(a: Attachment)
    requires '\n' !in a.name
    requires a.id.Text? ==> '\n' !in a.id.s
    ensures '\n' !in Link(a)
  {
    StrSingleLine(a.id);
    MarkupSingleLine();
    var url := AttachmentUrl(a.id);
    assert url == AttachmentUrlPrefix + Str(a.id) + AttachmentUrlSuffix;
    assert '\n' !in url;
    assert Link(a) == LinkOpen + url + "]" + a.name + LinkClose;
  }

  /** The rendered id holds a line break only if a string id does. */
  lemma StrSingleLine(id: JsonId)
    requires id.Text? ==> '\n' !in id.s
    ensures '\n' !in Str(id)
  {
    if id.Num? {
      var s := Str(id);
      if id.n < 0 {
        assert AllDigits(s[1..]);
        assert forall k :: 1 <= k < |s| ==> s[k] == s[1..][k - 1];
      }
      assert forall k :: 0 <= k < |s| ==> s[k] != '\n';
    }
  }

  /** None of the fixed pieces of a link holds a line break. */
  lemma MarkupSingleLine()
    ensures '\n' !in AttachmentUrlPrefix && '\n' !in AttachmentUrlSuffix
    ensures '\n' !in LinkOpen && '\n' !in LinkClose
  {
    UrlPrefixSingleLine();
    UrlSuffixSingleLine();
    TagsSingleLine();
  }

  lemma TagsSingleLine()
    ensures '\n' !in LinkOpen && '\n' !in LinkClose
  {
  }

  /** Attachments whose names and string ids hold no line break give single-line links. */
  lemma SingleLineLinksFromNames(atts: seq<Attachment>)
    requires forall i :: 0 <= i < |atts| ==> '\n' !in atts[i].name
    requires forall i :: 0 <= i < |atts| ==> atts[i].id.Text? ==> '\n' !in atts[i].id.s
    ensures SingleLineLinks(atts)
  {
    forall i | 0 <= i < |atts|
      ensures '\n' !in Link(atts[i])
    {
      LinkSingleLine(atts[i]);
    }
  }

  /** The cell reads `None` exactly when there is no attachment to show. */
  lemma AttachmentCellNoneIff(atts: Option<seq<Attachment>>)
    ensures AttachmentCell(atts) == NoAttachments <==> atts.None? || |atts.value| == 0
  {
  }

  /** Splitting a non-empty attachment cell at line breaks gives back one link per attachment. */
  lemma AttachmentCellLines(atts: seq<Attachment>)
    requires |atts| > 0
    requires SingleLineLinks(atts)
    ensures Split(AttachmentCell(Some(atts)), '\n') == Links(atts)
  {
    SplitJoin(Links(atts), '\n');
  }

  /** The table row shown for one new message. */
  function MakeRow(m: Msg): (r: Row)
    ensures r.sender == m.sender && r.recipient == m.recipient && r.subject == m.subject
    ensures r.body == BodyCell(m.bodyText) && |r.body| <= BodyLimit + |Ellipsis|
    ensures r.attachments == AttachmentCell(m.attachments)
    ensures r.attachments == NoAttachments <==> m.attachments.None? || |m.attachments.value| == 0
  {
    AttachmentCellNoneIff(m.attachments);
    Row(m.sender, m.recipient, m.subject, BodyCell(m.bodyText), AttachmentCell(m.attachments))
  }

  /**
   A row's attachment cell gives back, line by line, the links of the message's
   attachments when none of them spans several lines.
   */
  lemma {:induction false} MakeRowAttachmentLines(m: Msg)
    requires m.attachments.Some? && |m.attachments.value| > 0
    requires SingleLineLinks(m.attachments.value)
    ensures Split(MakeRow(m).attachments, '\n') == Links(m.attachments.value)
  {
    AttachmentCellLines(m.attachments.value);
  }
}

=== FILE: endpoints.dfy ===
/**
 The provider's attachment download endpoint, `.../attachment/{id}?download=1`, kept
 as the text before and after its `{id}` placeholder.
 */
module Endpoints {

  // The line-break lemmas below restate each literal as a concatenation of short
  // pieces; the cut points carry no meaning, short literals are just what the
  // verifier checks character by character without running out of resource.

  const UrlHost: string := "https://api.internal.temp-mail.io"
  const UrlPath: string := "/api/v3/attachment/"
  const AttachmentUrlPrefix: string := UrlHost + UrlPath
  const AttachmentUrlSuffix: string := "?download=1"

  /** Joining two single-line strings gives a single-line string. */
  lemma NoBreakIn2(a: string, b: string)
    requires '\n' !in a && '\n' !in b
    ensures '\n' !in a + b
  {
  }

  /** The host part of the download URL holds no line break. */
  lemma HostSingleLine()
    ensures '\n' !in UrlHost
  {
    assert UrlHost == "https://" + "api.intern" + "al.temp-ma" + "il.io";
  }

  /** The path part of the download URL holds no line break. */
  lemma PathSingleLine()
    ensures '\n' !in UrlPath
  {
    assert UrlPath == "/api/v3/" + "attachment/";
  }

  /** The text before the id in the download URL holds no line break. */
  lemma UrlPrefixSingleLine()
    ensures '\n' !in AttachmentUrlPrefix
  {
    HostSingleLine();
    PathSingleLine();
    NoBreakIn2(UrlHost, UrlPath);
  }

  /** The text after the id in the download URL holds no line break. */
  lemma UrlSuffixSingleLine()
    ensures '\n' !in AttachmentUrlSuffix
  {
    assert AttachmentUrlSuffix == "?downl" + "oad=1";
  }
}

=== FILE: ids.dfy ===
/**
 The identifiers the mail provider hands out (message ids, attachment ids) arrive in
 decoded JSON either as numbers or as strings. The program only ever uses them through
 Python's `str(...)`, so this module models that conversion: decimal rendering for
 integers, identity for strings.
 */
module Ids {

  /** A provider-assigned identifier as decoded from JSON. */
  datatype JsonId = Num(n: int) | Text(s: string)

  predicate IsDigit(c: char) {
    '0' <= c <= '9'
  }

  predicate AllDigits(s: string) {
    forall i :: 0 <= i < |s| ==> IsDigit(s[i])
  }

  function DigitValue(c: char): (d: nat)
    requires IsDigit(c)
    ensures d < 10
  {
    (c as int) - ('0' as int)
  }

  function DigitChar(d: nat): (c: char)
    requires d < 10
    ensures IsDigit(c)
    ensures DigitValue(c) == d
  {
    ((d + '0' as int) as char)
  }

  /** Decimal numeral of a natural number: digits only, no leading zero. */
  function NatToDecimal(n: nat): (s: string)
    ensures |s| > 0
    ensures AllDigits(s)
    ensures s[0] == '0' ==> n == 0
    ensures s[0] == '0' ==> s == "0"
    decreases n
  {
    if n < 10 then [DigitChar(n)]
    else NatToDecimal(n / 10) + [DigitChar(n % 10)]
  }

  /** Value of a string of decimal digits, most significant first. */
  function ParseNat(s: string): nat
    requires AllDigits(s)
  {
    if |s| == 0 then 0
    else ParseNat(s[..|s| - 1]) * 10 + DigitValue(s[|s| - 1])
  }

  /** Reading back a rendered natural number gives the number. */
  lemma {:induction false} ParseNatToDecimal(n: nat)
    ensures ParseNat(NatToDecimal(n)) == n
  {
    if n >= 10 {
      var s := NatToDecimal(n);
      assert s[..|s| - 1] == NatToDecimal(n / 10);
      ParseNatToDecimal(n / 10);
    }
  }

  /** Python's `str()` of an int: a minus sign for negatives, then the decimal digits. */
  function IntToDecimal(n: int): (s: string)
    ensures |s| > 0
    ensures n < 0 <==> s[0] == '-'
    ensures n >= 0 ==> AllDigits(s)
    ensures n < 0 ==> AllDigits(s[1..])
    ensures n >= 0 ==> ParseNat(s) == n && (s[0] == '0' ==> s == "0")
    ensures n < 0 ==> |s| > 1 && ParseNat(s[1..]) == -n && s[1] != '0'
  {
    if n < 0 then
      var digits := NatToDecimal(-n);
      ParseNatToDecimal(-n);
      assert ("-" + digits)[1..] == digits;
      "-" + digits
    else
      ParseNatToDecimal(n);
      NatToDecimal(n)
  }

  /** Distinct integers never render to the same string. */
  lemma IntToDecimalInjective(a: int, b: int)
    ensures IntToDecimal(a) == IntToDecimal(b) <==> a == b
  {
    if IntToDecimal(a) == IntToDecimal(b) {
      if a < 0 && b < 0 {
        assert NatToDecimal(-a) == IntToDecimal(a)[1..];
        assert NatToDecimal(-b) == IntToDecimal(b)[1..];
        ParseNatToDecimal(-a);
        ParseNatToDecimal(-b);
      } else if a >= 0 && b >= 0 {
        ParseNatToDecimal(a);
        ParseNatToDecimal(b);
      }
    }
  }

  /** `str(id)` as the program applies it to message and attachment ids. */
  function Str(id: JsonId): (s: string)
    ensures id.Text? ==> s == id.s
    ensures id.Num? ==> s == IntToDecimal(id.n)
    ensures id.Num? ==> |s| > 0 && (id.n < 0 <==> s[0] == '-')
  {
    match id
    case Num(n) => IntToDecimal(n)
    case Text(s) => s
  }

  /** Two numeric ids compare equal after `str()` exactly when they are the same number. */
  lemma StrNumInjective(a: int, b: int)
    ensures Str(Num(a)) == Str(Num(b)) <==> a == b
  {
    IntToDecimalInjective(a, b);
  }

  /** A numeric id and a string id holding its digits become the same key after `str()`. */
  lemma StrMergesNumAndText(n: int)
    ensures Str(Num(n)) == Str(Text(IntToDecimal(n)))
  {
  }

  lemma StrSmallNumbers()
    ensures Str(Num(1)) == "1"
    ensures Str(Num(2)) == "2"
    ensures Str(Num(42)) == "42"
    ensures Str(Num(-7)) == "-7"
  {
  }
}

=== FILE: poller.dfy ===
/**
 The inbox poller: one poll tick compares the provider's message listing against the
 set of already-seen message ids, builds a table row for each message not seen before,
 marks it seen, and asks for the seen file to be rewritten when anything was new.
 A viewing session is a series of such ticks over one in-memory seen set.
 */
module Poller {
  import opened Ids
  import opened Cells
  import opened Stores

  /** The key a message is remembered under: `str(id)`. */
  function IdOf(m: Msg): (k: string)
    ensures m.id.Text? ==> k == m.id.s
    ensures m.id.Num? ==> k == IntToDecimal(m.id.n)
  {
    Str(m.id)
  }

  /** Two messages with numeric ids share a key exactly when their ids are equal. */
  lemma IdOfNumInjective(m1: Msg, m2: Msg)
    requires m1.id.Num? && m2.id.Num?
    ensures IdOf(m1) == IdOf(m2) <==> m1.id == m2.id
  {
    StrNumInjective(m1.id.n, m2.id.n);
  }

  /** The keys of all messages in a listing. */
  function KeysOf(msgs: seq<Msg>): set<string> {
    if |msgs| == 0 then {}
    else KeysOf(msgs[..|msgs| - 1]) + {IdOf(msgs[|msgs| - 1])}
  }

  /** A key belongs to a listing exactly when some message of the listing carries it. */
  lemma {:induction false} KeysOfMembers(msgs: seq<Msg>, x: string)
    ensures x in KeysOf(msgs) <==> exists i :: 0 <= i < |msgs| && IdOf(msgs[i]) == x
  {
    if |msgs| > 0 {
      var init := msgs[..|msgs| - 1];
      KeysOfMembers(init, x);
      if x in KeysOf(init) {
        var i :| 0 <= i < |init| && IdOf(init[i]) == x;
        assert IdOf(msgs[i]) == x;
      }
      if exists i :: 0 <= i < |msgs| && IdOf(msgs[i]) == x {
        var i :| 0 <= i < |msgs| && IdOf(msgs[i]) == x;
        if i < |init| {
          assert IdOf(init[i]) == x;
        }
      }
    }
  }

  /**
   Message `i` of the listing is new when its key is neither in the loaded seen set
   nor the key of an earlier message of the same listing.
   */
  predicate IsNew(seen: set<string>, msgs: seq<Msg>, i: nat)
    requires i < |msgs|
  {
    IdOf(msgs[i]) !in seen && IdOf(msgs[i]) !in KeysOf(msgs[..i])
  }

  /** Positions among the first `n` messages that are new, in listing order. */
  function NewPositions(seen: set<string>, msgs: seq<Msg>, n: nat): (pos: seq<nat>)
    requires n <= |msgs|
    ensures forall k :: 0 <= k < |pos| ==> pos[k] < n
    ensures forall a, b :: 0 <= a < b < |pos| ==> pos[a] < pos[b]
  {
    if n == 0 then []
    else NewPositions(seen, msgs, n - 1) + (if IsNew(seen, msgs, n - 1) then [n - 1] else [])
  }

  /** The rows of the messages at positions `pos`, in the order of `pos`. */
  function RowsAt(msgs: seq<Msg>, pos: seq<nat>): (rows: seq<Row>)
    requires forall k :: 0 <= k < |pos| ==> pos[k] < |msgs|
    ensures |rows| == |pos|
    ensures forall k :: 0 <= k < |pos| ==> rows[k] == MakeRow(msgs[pos[k]])
  {
    seq(|pos|, k requires 0 <= k < |pos| => MakeRow(msgs[pos[k]]))
  }

  lemma KeysOfSnoc(msgs: seq<Msg>, i: nat)
    requires i < |msgs|
    ensures KeysOf(msgs[..i + 1]) == KeysOf(msgs[..i]) + {IdOf(msgs[i])}
  {
    assert msgs[..i + 1][..i] == msgs[..i];
  }

  /** A message gets a row exactly when it is new. */
  lemma {:induction false} NewPositionsExact(seen: set<string>, msgs: seq<Msg>, n: nat, i: nat)
    requires i < n <= |msgs|
    ensures i in NewPositions(seen, msgs, n) <==> IsNew(seen, msgs, i)
  {
    if i < n - 1 {
      NewPositionsExact(seen, msgs, n - 1, i);
    }
  }

  /** One row per distinct key of the listing that was not already seen. */
  lemma {:induction false} NewRowCount(seen: set<string>, msgs: seq<Msg>, n: nat)
    requires n <= |msgs|
    ensures |NewPositions(seen, msgs, n)| == |KeysOf(msgs[..n]) - seen|
  {
    if n == 0 {
      assert KeysOf(msgs[..0]) - seen == {};
    } else {
      NewRowCount(seen, msgs, n - 1);
      KeysOfSnoc(msgs, n - 1);
      var x := IdOf(msgs[n - 1]);
      var before := KeysOf(msgs[..n - 1]);
      var after := KeysOf(msgs[..n]);
      var p := NewPositions(seen, msgs, n - 1);
      if IsNew(seen, msgs, n - 1) {
        assert NewPositions(seen, msgs, n) == p + [n - 1];
        assert x !in before && x !in seen;
        assert after == before + {x};
        FreshKeyCount(before, seen, x);
        assert |after - seen| == |before - seen| + 1;
      } else {
        assert NewPositions(seen, msgs, n) == p;
        assert after - seen == before - seen;
      }
    }
  }

  lemma FreshKeyCount(before: set<string>, seen: set<string>, x: string)
    requires x !in before && x !in seen
    ensures |(before + {x}) - seen| == |before - seen| + 1
  {
    assert (before + {x}) - seen == (before - seen) + {x};
  }

  lemma RowsAtSnoc(msgs: seq<Msg>, pos: seq<nat>, i: nat)
    requires forall k :: 0 <= k < |pos| ==> pos[k] < |msgs|
    requires i < |msgs|
    ensures RowsAt(msgs, pos + [i]) == RowsAt(msgs, pos) + [MakeRow(msgs[i])]
  {
  }

  lemma EmptyDifference(a: set<string>, b: set<string>)
    ensures a - b == {} <==> a <= b
  {
    if !(a <= b) {
      var x :| x in a && x !in b;
      assert x in a - b;
    }
  }

  /** What one tick produces: the rows to show, the new seen set, whether to write it. */
  datatype TickResult = TickResult(rows: seq<Row>, seen: set<string>, write: bool)

  /**
   One poll tick over a successfully decoded listing: rows for the new messages in
   listing order, every key of the listing added to the seen set, and a write of the
   seen file when at least one row was produced.
   */
  function Tick(seen: set<string>, msgs: seq<Msg>): (r: TickResult)
    ensures seen <= r.seen
    ensures r.seen - seen <= KeysOf(msgs)
    ensures KeysOf(msgs) <= r.seen
    ensures r.write <==> |r.rows| > 0
    ensures r.write <==> !(KeysOf(msgs) <= seen)
    ensures |r.rows| == |KeysOf(msgs) - seen|
  {
    var pos := NewPositions(seen, msgs, |msgs|);
    NewRowCount(seen, msgs, |msgs|);
    assert msgs[..|msgs|] == msgs;
    var unseen := KeysOf(msgs) - seen;
    assert |pos| == |unseen|;
    EmptyDifference(KeysOf(msgs), seen);
    assert |unseen| == 0 <==> unseen == {};
    TickResult(RowsAt(msgs, pos), seen + KeysOf(msgs), |pos| > 0)
  }

  /**
   The tick as the program runs it: walk the listing once, and for each message whose
   key is not yet in the (growing) seen set, add the key and append its row.
   */
  method PollTick(seen: set<string>, msgs: seq<Msg>) returns (rows: seq<Row>, seen': set<string>, write: bool)
    ensures rows == RowsAt(msgs, NewPositions(seen, msgs, |msgs|))
    ensures seen' == seen + KeysOf(msgs)
    ensures write <==> |rows| > 0
    ensures TickResult(rows, seen', write) == Tick(seen, msgs)
  {
    rows := [];
    seen' := seen;
    write := false;
    for i := 0 to |msgs|
      invariant seen' == seen + KeysOf(msgs[..i])
      invariant rows == RowsAt(msgs, NewPositions(seen, msgs, i))
      invariant write <==> |rows| > 0
    {
      var id := IdOf(msgs[i]);
      KeysOfSnoc(msgs, i);
      ghost var pos := NewPositions(seen, msgs, i);
      if id !in seen' {
        assert IsNew(seen, msgs, i);
        RowsAtSnoc(msgs, pos, i);
        write := true;
        seen' := seen' + {id};
        rows := rows + [MakeRow(msgs[i])];
      } else {
        assert !IsNew(seen, msgs, i);
      }
    }
    assert msgs[..|msgs|] == msgs;
  }

  /** Feeding the same listing again from the resulting seen set shows and writes nothing. */
  lemma ReplayIsQuiet(seen: set<string>, msgs: seq<Msg>)
    ensures Tick(Tick(seen, msgs).seen, msgs) == TickResult([], Tick(seen, msgs).seen, false)
  {
  }

  /** A listing `[{id: 1}, {id: 2}]` against seen set `{"1"}` shows only message 2. */
  lemma FirstMessageAlreadySeen(m1: Msg, m2: Msg)
    requires m1.id == Num(1) && m2.id == Num(2)
    ensures Tick({"1"}, [m1, m2]) == TickResult([MakeRow(m2)], {"1", "2"}, true)
  {
    StrSmallNumbers();
    var msgs := [m1, m2];
    assert msgs[..1] == [m1];
    assert msgs[..0] == [];
    assert KeysOf(msgs[..0]) == {};
    assert KeysOf(msgs[..1]) == {"1"};
    assert !IsNew({"1"}, msgs, 0);
    assert IsNew({"1"}, msgs, 1);
    assert NewPositions({"1"}, msgs, 2) == [1];
    assert KeysOf(msgs) == {"1", "2"};
  }

  /** The provider's answer to one inbox request. */
  datatype Response =
    | RequestFailed          // network error or non-success HTTP status
    | NotJson                // a body that does not decode: no messages yet
    | Messages(msgs: seq<Msg>)

  /** A viewing session: the in-memory seen set, the seen file, and the table on screen. */
  datatype InboxView = InboxView(seen: set<string>, seenFile: SeenFile, table: seq<Row>)

  /** The in-memory seen set agrees with what the seen file would load as. */
  predicate Synced(v: InboxView) {
    LoadSeen(v.seenFile) == v.seen
  }

  /** Opening the inbox view loads the seen set from the seen file; nothing is shown yet. */
  function OpenInbox(f: SeenFile): (v: InboxView)
    ensures Synced(v)
    ensures !f.Valid? ==> v.seen == {}
    ensures v.seenFile == f && v.table == []
  {
    InboxView(LoadSeen(f), f, [])
  }

  /**
   One turn of the polling loop. A failed request or an undecodable body changes
   nothing. A listing runs a tick; when it yields rows, the table is replaced by those
   rows and the seen file is rewritten with the whole seen set.
   */
  function Poll(v: InboxView, resp: Response): (v': InboxView)
    ensures v.seen <= v'.seen
    ensures !resp.Messages? ==> v' == v
    ensures resp.Messages? ==> v'.seen == v.seen + KeysOf(resp.msgs)
    ensures resp.Messages? && Tick(v.seen, resp.msgs).write ==>
              v'.table == Tick(v.seen, resp.msgs).rows && v'.seenFile == StoreSeen(v'.seen)
    ensures resp.Messages? && !Tick(v.seen, resp.msgs).write ==> v' == v
    ensures v'.seenFile != v.seenFile ==> v'.seenFile == Valid(v'.seen) && |v'.table| > 0
    ensures v'.table != v.table ==> v'.seenFile == Valid(v'.seen)
    ensures Synced(v) ==> Synced(v')
  {
    match resp
    case Messages(msgs) =>
      var t := Tick(v.seen, msgs);
      if t.write then InboxView(t.seen, StoreSeen(t.seen), t.rows)
      else v.(seen := t.seen)
    case _ => v
  }

  /** The same listing polled twice in a row changes nothing the second time. */
  lemma PollTwice(v: InboxView, msgs: seq<Msg>)
    ensures Poll(Poll(v, Messages(msgs)), Messages(msgs)) == Poll(v, Messages(msgs))
  {
  }

  /**
   Leaving the view and opening it again later restores the same seen set from disk,
   so a listing already polled shows nothing and writes nothing.
   */
  lemma ReopenShowsNothingOld(v: InboxView, msgs: seq<Msg>)
    requires Synced(v)
    ensures var v1 := Poll(v, Messages(msgs));
            var v2 := OpenInbox(v1.seenFile);
            v2.seen == v1.seen && Poll(v2, Messages(msgs)) == v2
  {
  }

  /** After wiping local data, every distinct message key of a listing is shown again. */
  lemma WipeShowsEverything(d: LocalData, msgs: seq<Msg>)
    ensures |Poll(OpenInbox(RemoveAllData(d).seen), Messages(msgs)).table| == |KeysOf(msgs)|
  {
  }
}

=== FILE: stores.dfy ===
/**
 The two local JSON files the program keeps under its data directory: the history of
 generated addresses (a JSON array in creation order) and the ids of messages already
 shown (a JSON array read into, and written from, a set). File contents are abstracted
 to three states: absent, present but not decodable, or decoded.
 */
module Stores {

  /** The state of one JSON file on disk. */
  datatype JsonFile<T> = Missing | Corrupt | Valid(content: T)

  /** The address-history file: an ordered list of addresses. */
  type HistoryFile = JsonFile<seq<string>>

  /** The seen-message file: the set of message-id strings already displayed. */
  type SeenFile = JsonFile<set<string>>

  /** Everything the program stores locally. */
  datatype LocalData = LocalData(history: HistoryFile, seen: SeenFile)

  predicate NoDuplicates(xs: seq<string>) {
    forall i, j :: 0 <= i < j < |xs| ==> xs[i] != xs[j]
  }

  /** Listing the history: a missing or undecodable file reads as no addresses at all. */
  function ReadHistory(f: HistoryFile): (emails: seq<string>)
    ensures f.Missing? ==> emails == []
    ensures f.Corrupt? ==> emails == []
    ensures f.Valid? ==> emails == f.content
  {
    match f
    case Valid(xs) => xs
    case _ => []
  }

  /**
   Recording a newly generated address. A missing file is first created holding an
   empty list; an undecodable one is read as empty; the address is appended and the
   list written back only when it is not already there.
   */
  function SaveEmail(f: HistoryFile, email: string): (f': HistoryFile)
    ensures f'.Valid?
    ensures email in ReadHistory(f')
    ensures email in ReadHistory(f) ==> f' == f
    ensures email !in ReadHistory(f) ==> ReadHistory(f') == ReadHistory(f) + [email]
    ensures !f.Valid? ==> ReadHistory(f') == [email]
  {
    var created := if f.Missing? then Valid([]) else f;
    var emails := ReadHistory(created);
    if email in emails then created
    else Valid(emails + [email])
  }

  /** Saving the same address twice has the effect of saving it once. */
  lemma SaveEmailIdempotent(f: HistoryFile, email: string)
    ensures SaveEmail(SaveEmail(f, email), email) == SaveEmail(f, email)
  {
  }

  /** Saving never loses or reorders what the history already lists. */
  lemma SaveEmailKeepsEarlier(f: HistoryFile, email: string)
    ensures ReadHistory(f) <= ReadHistory(SaveEmail(f, email))
    ensures |ReadHistory(SaveEmail(f, email))| <= |ReadHistory(f)| + 1
  {
  }

  /** A history without repeated addresses stays without repeated addresses. */
  lemma SaveEmailKeepsNoDuplicates(f: HistoryFile, email: string)
    requires NoDuplicates(ReadHistory(f))
    ensures NoDuplicates(ReadHistory(SaveEmail(f, email)))
  {
  }

  /** The history after saving each address of `emails` in turn, last one saved last. */
  function SaveAll(f: HistoryFile, emails: seq<string>): HistoryFile
  {
    if |emails| == 0 then f
    else SaveEmail(SaveAll(f, emails[..|emails| - 1]), emails[|emails| - 1])
  }

  /**
   Every occurrence in `xs` of a later element of `r` is preceded in `xs` by an
   occurrence of each earlier element of `r`: `r` lists values by first appearance.
   */
  predicate FirstSeenOrder(r: seq<string>, xs: seq<string>) {
    forall i, j, q :: 0 <= i < j < |r| && 0 <= q < |xs| && xs[q] == r[j] ==> r[i] in xs[..q]
  }

  /** The distinct values of `xs`, each once, in order of first appearance. */
  function Distinct(xs: seq<string>): (r: seq<string>)
    ensures forall y :: y in r <==> y in xs
    ensures NoDuplicates(r)
    ensures FirstSeenOrder(r, xs)
  {
    if |xs| == 0 then []
    else
      var init := xs[..|xs| - 1];
      var x := xs[|xs| - 1];
      var d := Distinct(init);
      assert forall q :: 0 <= q < |init| ==> init[..q] == xs[..q];
      assert xs[..|xs| - 1] == init;
      if x in init then d else d + [x]
  }

  /**
   Starting from no usable history, saving a series of addresses leaves each distinct
   address listed exactly once, in the order it was first saved.
   */
  lemma {:induction false} SaveAllFromScratch(f: HistoryFile, emails: seq<string>)
    requires ReadHistory(f) == []
    ensures SaveAll(f, emails) == (if |emails| == 0 then f else Valid(Distinct(emails)))
  {
    if |emails| > 0 {
      var init := emails[..|emails| - 1];
      SaveAllFromScratch(f, init);
    }
  }

  lemma SaveTwiceThenAnother()
    ensures ReadHistory(SaveAll(Missing, ["a@x.test", "a@x.test", "b@x.test"]))
         == ["a@x.test", "b@x.test"]
  {
    var a, b := "a@x.test", "b@x.test";
    var es := [a, a, b];
    assert es[..2] == [a, a];
    assert es[..2][..1] == [a];
    assert [a][..0] == [];
    assert SaveAll(Missing, []) == Missing;
    var h1 := SaveAll(Missing, [a]);
    assert h1 == SaveEmail(SaveAll(Missing, []), a);
    assert h1 == Valid([a]);
    var h2 := SaveAll(Missing, [a, a]);
    assert h2 == SaveEmail(h1, a) == h1;
    assert b !in [a];
    assert SaveAll(Missing, es) == SaveEmail(h2, b);
    assert SaveEmail(h2, b) == Valid([a] + [b]);
  }

  /** Loading the seen ids: a missing or undecodable file gives the empty set. */
  function LoadSeen(f: SeenFile): (ids: set<string>)
    ensures !f.Valid? ==> ids == {}
    ensures f.Valid? ==> ids == f.content
  {
    match f
    case Valid(ids) => ids
    case _ => {}
  }

  /** Writing the seen ids replaces the file content with exactly those ids. */
  function StoreSeen(ids: set<string>): (f: SeenFile)
    ensures LoadSeen(f) == ids
  {
    Valid(ids)
  }

  /** Wiping local state deletes both files, whatever they held. */
  function RemoveAllData(d: LocalData): (d': LocalData)
    ensures d'.history.Missing? && d'.seen.Missing?
    ensures ReadHistory(d'.history) == []
    ensures LoadSeen(d'.seen) == {}
  {
    d.(history := Missing, seen := Missing)
  }

  /** After a wipe, the next saved address is the whole history. */
  lemma SaveAfterRemove(d: LocalData, email: string)
    ensures ReadHistory(SaveEmail(RemoveAllData(d).history, email)) == [email]
  {
  }
}

=== FILE: strings.dfy ===
/**
 String joining as Python's `sep.join(parts)` does it, and the matching split,
 so that a joined cell can be shown to determine its parts.
 */
module Strings {

  /** `[sep].join(parts)`: the parts in order with one separator between neighbours. */
  function Join(parts: seq<string>, sep: char): (s: string)
    ensures |parts| == 0 ==> s == ""
    ensures |parts| > 0 ==> parts[0] <= s
    ensures |parts| > 1 ==> |s| > |parts[0]| && s[|parts[0]|] == sep
  {
    if |parts| == 0 then ""
    else if |parts| == 1 then parts[0]
    else parts[0] + [sep] + Join(parts[1..], sep)
  }

  /** Position of the first occurrence of `c` in `s`. */
  function IndexOf(s: string, c: char): (i: nat)
    requires c in s
    ensures i < |s| && s[i] == c
    ensures c !in s[..i]
  {
    if s[0] == c then 0
    else
      assert s == [s[0]] + s[1..];
      var j := IndexOf(s[1..], c);
      assert s[..j + 1] == [s[0]] + s[1..][..j];
      j + 1
  }

  /** Splits `s` at every `sep`; the pieces never contain `sep`. */
  function Split(s: string, sep: char): (parts: seq<string>)
    ensures |parts| > 0
    ensures forall k :: 0 <= k < |parts| ==> sep !in parts[k]
    decreases |s|
  {
    if sep !in s then [s]
    else
      var i := IndexOf(s, sep);
      [s[..i]] + Split(s[i + 1..], sep)
  }

  /** The first occurrence is the only position holding `c` with no `c` before it. */
  lemma IndexOfIsFirst(s: string, c: char, i: nat)
    requires i < |s| && s[i] == c && c !in s[..i]
    ensures IndexOf(s, c) == i
  {
  }

  /** Splitting at a first separator peels off the piece before it. */
  lemma SplitAtFirst(head: string, rest: string, sep: char)
    requires sep !in head
    ensures Split(head + [sep] + rest, sep) == [head] + Split(rest, sep)
  {
    var s := head + [sep] + rest;
    assert s[|head|] == sep;
    assert s[..|head|] == head;
    IndexOfIsFirst(s, sep, |head|);
    assert s[|head| + 1..] == rest;
  }

  /** Splitting a join recovers the parts, as long as no part contains the separator. */
  lemma {:induction false} SplitJoin(parts: seq<string>, sep: char)
    requires |parts| > 0
    requires forall k :: 0 <= k < |parts| ==> sep !in parts[k]
    ensures Split(Join(parts, sep), sep) == parts
  {
    if |parts| > 1 {
      SplitAtFirst(parts[0], Join(parts[1..], sep), sep);
      SplitJoin(parts[1..], sep);
      assert parts == [parts[0]] + parts[1..];
    }
  }
}
